=== FILE: README.md ===
# EarTrumpet filtered session collection, in Dafny

EarTrumpet's `FilteredAudioDeviceSessionCollection` keeps a view of a
device's audio sessions: its `Sessions` collection holds the sessions of a
source collection that an applicability callback accepts. The view is kept
current by two kinds of handler. One reacts to the source's
collection-change notifications (Add, Remove, Reset; Replace and Move throw).
The other reacts to each session's property-change notifications for `State`
and `ActiveOnOtherDevice`. Both funnel into one reconciliation step,
`AddIfApplicable`.

The model is functional. The filter's whole state is one value,
`FilteredCollection.Model`, with four parts:

- `world`: the current fields of every session object;
- `source`: the source collection, as ids;
- `filtered`: the view, as ids;
- `subs`: how many times the property-change handler is attached to each
  session.

The callback is a parameter `p: SessionFields -> bool`. Every handler is a
pure function from a state to a state. A .NET event calls each attached
delegate once, so a property change runs the handler once per attachment
(`FilteredCollection.Deliver`).

`Traces` adds runs. Each step is a change made by the outside world (a source
insert, removal, reset, replace or move, or a new value of one session's
fields) followed by the handler it triggers. Runs can use the handlers as
written or the repaired ones in `CorrectedCollection`.

`Synchronization` proves when the view stays equal to "the accepted sessions
of the source, once each". For the code as written this holds exactly as long
as no step revives a removed session. For the repaired handlers it holds for
every run, with each source session attached exactly once.

Modules, one per file:

- `Sessions` (`sessions.dfy`): session ids, fields, the callback type and the
  watched property names.
- `IdSequences` (`id_sequences.dfy`): `ContainsById`, `RemoveById` and the
  first-match removal of `Collection.Remove`.
- `FilteredCollection` (`filtered_collection.dfy`): the constructor and the
  three handlers, as written.
- `CorrectedCollection` (`corrected_collection.dfy`): the same handlers with
  idempotent attachment and detachment on Remove and Reset.
- `Traces` (`traces.dfy`): steps, runs and the run-level assumptions.
- `Synchronization` (`synchronization.dfy`): the invariant.
- `Scenarios` (`scenarios.dfy`): a worked example and the two
  counterexamples.

Where the intended behaviour and the code differ, the model follows the code:

- **Re-attachment.** Attaching the property-change handler is meant to be
  idempotent: the comment on line 78 only asks to keep listening. Line 83 is a
  plain `+=`, so every reconsideration of a non-member, and every Reset,
  attaches it once more.
- **Multi-item notifications.** An Add or Remove notification with more than
  one item is a programming error that should stop the program. The code only
  has `Debug.Assert` (lines 48 and 54), so the model makes the single item a
  precondition of the handler.
- **No unsubscribe on Remove.** Remove (line 55) and Reset (line 59) drop
  sessions from the view without detaching the handler, unlike the finalizer
  (line 31). The model exhibits what follows (see Findings).

## Model

| member | source | states |
|---|---|---|
| IdSequences.FindIndex | EarTrumpet/DataModel/FilteredAudioDeviceSessionCollection.cs:73 | the search finds nothing exactly when the id is absent; otherwise the position holds the id and no earlier position does |
| IdSequences.ContainsById | EarTrumpet/DataModel/FilteredAudioDeviceSessionCollection.cs:73 | true exactly when the id is in the collection |
| IdSequences.RemoveById | EarTrumpet/DataModel/FilteredAudioDeviceSessionCollection.cs:77 | one occurrence fewer of the id (multiset), nothing else changes membership, an absent id changes nothing; it is the first occurrence that is removed; over distinct ids the result is the collection without that id, in the same order |
| IdSequences.DeleteAtIsWithout | EarTrumpet/DataModel/FilteredAudioDeviceSessionCollection.cs:55 | deleting the only position holding an id equals the order-preserving reference removal `Without` |
| FilteredCollection.Subscribe | EarTrumpet/DataModel/FilteredAudioDeviceSessionCollection.cs:83 | `+=` adds exactly one attachment to that session and changes nothing else |
| FilteredCollection.AddIfApplicable | EarTrumpet/DataModel/FilteredAudioDeviceSessionCollection.cs:71-90 | an accepted member changes nothing at all; a rejected member loses one occurrence and the handler stays attached, and when the view has no duplicates it alone leaves the view and the rest keep their order; a non-member gains one attachment and is appended at the end iff accepted; when the view has no duplicates, afterwards it holds the session iff accepted and still has none |
| FilteredCollection.PopulateFrom | EarTrumpet/DataModel/FilteredAudioDeviceSessionCollection.cs:35-41 | when the view has no duplicates, after the loop every visited session is in the view iff accepted and there are still none; unvisited ones keep membership and attachments, attachments never decrease, and each visited non-member gains at least one |
| FilteredCollection.PopulateInOrder | EarTrumpet/DataModel/FilteredAudioDeviceSessionCollection.cs:35-41 | over distinct ids not yet in the view, population appends exactly the accepted ones, in source order (equal to the reference `Select`) |
| FilteredCollection.PopulateSubscribesOnce | EarTrumpet/DataModel/FilteredAudioDeviceSessionCollection.cs:37-39 | over distinct ids not yet in the view, population attaches the handler exactly once more to each |
| FilteredCollection.Create | EarTrumpet/DataModel/FilteredAudioDeviceSessionCollection.cs:15-23 | the view holds exactly the accepted source sessions, without duplicates; exactly the source sessions are attached; over distinct source ids, the view is in source order, each is attached once, and the state is synchronized |
| FilteredCollection.OnCollectionChanged | EarTrumpet/DataModel/FilteredAudioDeviceSessionCollection.cs:43-69 | Replace and Move, and only they, throw and change nothing; Add reconsiders the new session only; Remove takes one occurrence of the old session out of the view whatever the callback says (over a view without duplicates, the session itself, with the rest in order) and leaves attachments alone; Reset rebuilds the view from the source and attaches once more to every source session; the source and the sessions are never changed |
| FilteredCollection.Repopulate | EarTrumpet/DataModel/FilteredAudioDeviceSessionCollection.cs:58-60 | after Clear and population the view holds exactly the accepted source sessions, with no duplicates; every source session gains an attachment and no other does |
| FilteredCollection.RepopulateInOrder | EarTrumpet/DataModel/FilteredAudioDeviceSessionCollection.cs:58-60 | over distinct source ids, Reset yields the accepted source sessions in source order, each attached exactly once more |
| FilteredCollection.Deliver | EarTrumpet/DataModel/FilteredAudioDeviceSessionCollection.cs:92-100 | when the view has no duplicates, running the handler once per attachment leaves the same view as a single reconciliation; an accepted session gains at most one attachment; a rejected one gains one for each call that finds it outside the view |
| FilteredCollection.OnPropertyChanged | EarTrumpet/DataModel/FilteredAudioDeviceSessionCollection.cs:92-100 | a change of any unwatched property, or of a session the handler is not attached to, changes nothing; when the view has no duplicates, a watched change of an attached session leaves it in the view iff accepted; no other session changes membership or attachments |
| CorrectedCollection.AttachOnce | EarTrumpet/DataModel/FilteredAudioDeviceSessionCollection.cs:83 | repaired attachment: a session with at most one attachment ends with exactly one |
| CorrectedCollection.Detach | EarTrumpet/DataModel/FilteredAudioDeviceSessionCollection.cs:31 | `-=`: an attached session loses exactly one attachment, an unattached one stays at none; no other session changes |
| CorrectedCollection.DetachUndoesSubscribe | EarTrumpet/DataModel/FilteredAudioDeviceSessionCollection.cs:31 | a `-=` after a `+=` leaves every session with the attachments it had |
| CorrectedCollection.FixedAddIfApplicable | EarTrumpet/DataModel/FilteredAudioDeviceSessionCollection.cs:71-90 | the same view as `AddIfApplicable`, but at most one attachment stays at most one |
| CorrectedCollection.PopulateViewIgnoresSubs | EarTrumpet/DataModel/FilteredAudioDeviceSessionCollection.cs:35-41 | the view population builds does not depend on the attachment counts |
| CorrectedCollection.FixedPopulateFrom | EarTrumpet/DataModel/FilteredAudioDeviceSessionCollection.cs:35-41 | the same view as `PopulateFrom`; at most one attachment per session stays at most one |
| CorrectedCollection.FixedRepopulate | EarTrumpet/DataModel/FilteredAudioDeviceSessionCollection.cs:58-60 | the same view as `Repopulate`, and afterwards exactly the source sessions are attached, once each |
| CorrectedCollection.FixedRemove | EarTrumpet/DataModel/FilteredAudioDeviceSessionCollection.cs:53-56 | the view loses the removed session as in `RemoveById`, and that session loses one attachment, so a singly attached session ends with none |
| CorrectedCollection.FixedOnCollectionChanged | EarTrumpet/DataModel/FilteredAudioDeviceSessionCollection.cs:43-69 | Replace and Move, and only they, fail and change nothing; Add keeps the new session at most singly attached; Remove detaches; Reset leaves exactly the source sessions attached once |
| CorrectedCollection.FixedCollectionSameView | EarTrumpet/DataModel/FilteredAudioDeviceSessionCollection.cs:43-69 | the repaired collection handler produces the same view as the one as written, for every notification |
| CorrectedCollection.FixedOnPropertyChanged | EarTrumpet/DataModel/FilteredAudioDeviceSessionCollection.cs:92-100 | when the view has no duplicates, the same view as `OnPropertyChanged`; singly attached sessions stay singly attached |
| Traces.Apply | EarTrumpet/DataModel/FilteredAudioDeviceSessionCollection.cs:63-67 | a step ends in `NotImplementedException` exactly when it is a Replace or a Move |
| Traces.Run | EarTrumpet/DataModel/FilteredAudioDeviceSessionCollection.cs:63-67 | a run stops at an exception exactly when it contains a Replace or a Move |
| Synchronization.InsertKeepsSync | EarTrumpet/DataModel/FilteredAudioDeviceSessionCollection.cs:47-51 | an Add of a new session keeps the view equal to the accepted source sessions |
| Synchronization.RemoveKeepsSync | EarTrumpet/DataModel/FilteredAudioDeviceSessionCollection.cs:53-56 | a Remove keeps the view equal to the accepted source sessions |
| Synchronization.ResetKeepsSync | EarTrumpet/DataModel/FilteredAudioDeviceSessionCollection.cs:58-61 | a Reset to distinct ids keeps the view equal to the accepted source sessions |
| Synchronization.UnwatchedChangeKeepsSync | EarTrumpet/DataModel/FilteredAudioDeviceSessionCollection.cs:95-99 | a change under an unwatched name leaves the invariant intact, given a callback that reads only the watched fields |
| Synchronization.WatchedChangeKeepsSync | EarTrumpet/DataModel/FilteredAudioDeviceSessionCollection.cs:92-100 | a watched change that does not revive a removed session keeps the invariant |
| Synchronization.ChangeKeepsSync | EarTrumpet/DataModel/FilteredAudioDeviceSessionCollection.cs:92-100 | any truthfully named property change that does not revive a removed session keeps the invariant |
| Synchronization.StepKeepsSync | EarTrumpet/DataModel/FilteredAudioDeviceSessionCollection.cs:43-69 | every supported, non-reviving step keeps the invariant, and only Replace and Move throw |
| Synchronization.RevivalBreaksSync | EarTrumpet/DataModel/FilteredAudioDeviceSessionCollection.cs:53-56 | a watched, accepted change of a removed but still attached session puts it back into the view although it is not in the source |
| Synchronization.StepBreaksSyncIffRevives | EarTrumpet/DataModel/FilteredAudioDeviceSessionCollection.cs:53-56 | as written, a step breaks the invariant if and only if it revives a removed session |
| Synchronization.RunKeepsSync | EarTrumpet/DataModel/FilteredAudioDeviceSessionCollection.cs:43-100 | a whole run without revivals ends with the invariant, unless it stopped at an exception |
| Synchronization.RunKeepsNoDup | EarTrumpet/DataModel/FilteredAudioDeviceSessionCollection.cs:43-100 | every run of the handlers as written keeps the view free of duplicates, revivals included |
| Synchronization.FixedStepKeepsSync | EarTrumpet/DataModel/FilteredAudioDeviceSessionCollection.cs:43-100 | with the repaired handlers every step keeps the invariant and exactly-once attachment to the source sessions |
| Synchronization.FixedRunKeepsSync | EarTrumpet/DataModel/FilteredAudioDeviceSessionCollection.cs:43-100 | with the repaired handlers every run keeps that invariant, revivals included |
| Synchronization.CreateStartsFixedSync | EarTrumpet/DataModel/FilteredAudioDeviceSessionCollection.cs:15-23 | construction over distinct ids establishes the repaired invariant |
| Scenarios.ExampleScenario | EarTrumpet/DataModel/FilteredAudioDeviceSessionCollection.cs:15-100 | source [A active, B inactive] shows [A]; B becoming active gives [A, B]; removing A from the source gives [B] |
| Scenarios.RemovedSessionComesBack | EarTrumpet/DataModel/FilteredAudioDeviceSessionCollection.cs:53-56 | as written: removing A and then changing where A is active puts A back into the view with an empty source |
| Scenarios.RemovedSessionStaysOut | EarTrumpet/DataModel/FilteredAudioDeviceSessionCollection.cs:53-56 | repaired: the same run leaves the view empty and A detached |
| Scenarios.AttachmentsAccumulate | EarTrumpet/DataModel/FilteredAudioDeviceSessionCollection.cs:81-83 | as written: two state changes of a hidden session leave the handler attached to it four times |
| Scenarios.AttachmentStaysSingle | EarTrumpet/DataModel/FilteredAudioDeviceSessionCollection.cs:81-83 | repaired: the same run leaves one attachment |

## Left out

- The finalizer (lines 25-33) is left out. It runs at a time garbage
  collection chooses, and it only detaches handlers. `CorrectedCollection.Detach`
  models one such `-=`.
- The constructor's `CollectionChanged +=` (line 19) is not modelled as state.
  `Traces` delivers every source change to the handler directly.
- The change notifications that `Sessions` itself raises to UI bindings are
  left out. Nothing in the filter reads them.
- The session objects and the OS audio APIs behind them are reduced to
  `SessionFields`. Volume and mute stand in for every unwatched property.
- `Debug.Assert` on lines 48 and 54 is a precondition, not a modelled failure.
  Release builds skip the check, and such a notification is a programming
  error.
- Re-entrancy is left out. The callback is a pure function of a session's
  fields and cannot change any collection.
- `FilteredCollection.OnCollectionChanged` covers only the notification kinds
  named in the switch. .NET has no other kinds.
- Sessions are identified by id. `Collection.Remove` (line 55) compares
  references and `RemoveById` (line 77) compares ids; the model treats the two
  alike. `ContainsById` and `RemoveById` come from an extension file that is
  not part of this model, so they are modelled as a front-to-back linear
  search and removal of the first match.
- Traces: the invariant is proved only for runs in which source ids stay
  distinct and every property-change notification names the property that
  changed. A callback that reads other fields can fall out of step with
  no code path to notice it, and the code does not guard against that.

## Findings

| source | as written | input that shows it | evidently intended | confidence | as-written member | corrected member |
|---|---|---|---|---|---|---|
| EarTrumpet/DataModel/FilteredAudioDeviceSessionCollection.cs:83 | `session.PropertyChanged += Session_PropertyChanged` runs every time a session outside the view is reconsidered, so attachments pile up | one inactive session, callback "state is Active": it goes Expired, then Inactive; afterwards the handler is attached 4 times, and each later change runs the handler 4 times | attach once (the comment on line 78 asks only to keep listening) | medium; not executed | Scenarios.AttachmentsAccumulate | Scenarios.AttachmentStaysSingle |
| EarTrumpet/DataModel/FilteredAudioDeviceSessionCollection.cs:55 | Remove (line 55), and likewise Reset for the sessions it drops (line 59), takes a session out of the view but leaves the handler attached, so a later change of that session re-adds it | one active session A in view; A is removed from the source; A then reports an `ActiveOnOtherDevice` change while still active: the view is [A] with an empty source | detach on Remove and Reset, keeping the view within the source | medium; not executed | Synchronization.StepBreaksSyncIffRevives | Synchronization.FixedRunKeepsSync |

=== FILE: corrected_collection.dfy ===
/** The filtered collection with its two subscription leaks repaired:
    attaching the property-change handler is idempotent, and a session leaving
    the source is detached. Only subscriptions differ: on a view without
    duplicates, every handler below produces the same view as the handler it
    repairs. */
module CorrectedCollection {
  import opened Sessions
  import opened IdSequences
  import opened FilteredCollection

  /** `PropertyChanged -= handler; PropertyChanged += handler;`: at most one
      attachment results from any number of calls. */
  function AttachOnce(m: Model, id: Id): (r: Model)
    ensures r.world == m.world && r.source == m.source && r.filtered == m.filtered
    ensures Subs(m, id) <= 1 ==> Subs(r, id) == 1
    ensures Subs(r, id) >= Subs(m, id) && Subs(r, id) > 0
    ensures forall x :: x != id ==> Subs(r, x) == Subs(m, x)
  {
    var left := if Subs(m, id) > 0 then Subs(m, id) - 1 else 0;
    m.(subs := m.subs[id := left + 1])
  }

  /** `PropertyChanged -= handler`: one attachment fewer, if there is one. */
  function Detach(m: Model, id: Id): (r: Model)
    ensures r.world == m.world && r.source == m.source && r.filtered == m.filtered
    ensures Subs(m, id) > 0 ==> Subs(r, id) + 1 == Subs(m, id)
    ensures Subs(m, id) == 0 ==> Subs(r, id) == 0
    ensures forall x :: x != id ==> Subs(r, x) == Subs(m, x)
  {
    var left := if Subs(m, id) > 0 then Subs(m, id) - 1 else 0;
    m.(subs := m.subs[id := left])
  }

  /** Detaching undoes one attachment. */
  lemma DetachUndoesSubscribe(m: Model, id: Id)
    ensures forall x :: Subs(Detach(Subscribe(m, id), id), x) == Subs(m, x)
  {
  }

  /** Reconciliation with an idempotent attachment. */
  function FixedAddIfApplicable(p: Applicability, m: Model, id: Id): (r: Model)
    requires id in m.world
    ensures r.world == m.world && r.source == m.source
    // the view is exactly the one the unrepaired step produces
    ensures r.filtered == AddIfApplicable(p, m, id).filtered
    ensures forall x :: x != id ==> Subs(r, x) == Subs(m, x)
    ensures Subs(r, id) >= Subs(m, id)
    ensures id !in m.filtered ==> Subs(r, id) > 0
    ensures Subs(m, id) <= 1 ==> Subs(r, id) <= 1
  {
    if ContainsById(m.filtered, id) then
      if !p(m.world[id]) then m.(filtered := RemoveById(m.filtered, id)) else m
    else
      var m' := AttachOnce(m, id);
      if p(m.world[id]) then m'.(filtered := m.filtered + [id]) else m'
  }

  /** The view population builds depends on the sessions and the view it
      starts from, never on the attachments. */
  lemma {:induction false} PopulateViewIgnoresSubs(p: Applicability, m1: Model, m2: Model, ids: seq<Id>)
    requires m1.world == m2.world && m1.filtered == m2.filtered
    requires forall x :: x in ids ==> x in m1.world
    ensures PopulateFrom(p, m1, ids).filtered == PopulateFrom(p, m2, ids).filtered
    decreases |ids|
  {
    if ids != [] {
      var a1, a2 := AddIfApplicable(p, m1, ids[0]), AddIfApplicable(p, m2, ids[0]);
      assert a1.filtered == a2.filtered;
      PopulateViewIgnoresSubs(p, a1, a2, ids[1..]);
    }
  }

  /** `PopulateSessions` over `ids` with the repaired reconciliation. */
  function FixedPopulateFrom(p: Applicability, m: Model, ids: seq<Id>): (r: Model)
    requires forall x :: x in ids ==> x in m.world
    ensures r.world == m.world && r.source == m.source
    ensures r.filtered == PopulateFrom(p, m, ids).filtered
    ensures forall x :: x !in ids ==> Subs(r, x) == Subs(m, x)
    ensures forall x :: Subs(r, x) >= Subs(m, x)
    ensures forall x :: x in ids && x !in m.filtered ==> Subs(r, x) > 0
    ensures (forall x :: Subs(m, x) <= 1) ==> forall x :: Subs(r, x) <= 1
    decreases |ids|
  {
    if ids == [] then m
    else
      var a := FixedAddIfApplicable(p, m, ids[0]);
      PopulateViewIgnoresSubs(p, a, AddIfApplicable(p, m, ids[0]), ids[1..]);
      FixedPopulateFrom(p, a, ids[1..])
  }

  /** The Reset branch: detach from every session observed so far, clear the
      view, and populate it again. */
  function FixedRepopulate(p: Applicability, m: Model): (r: Model)
    requires forall x :: x in m.source ==> x in m.world
    ensures r.world == m.world && r.source == m.source
    ensures r.filtered == Repopulate(p, m).filtered
    // attached exactly once to exactly the sessions of the source
    ensures forall x :: Subs(r, x) == (if x in m.source then 1 else 0)
  {
    var cleared := m.(filtered := [], subs := map[]);
    PopulateViewIgnoresSubs(p, cleared, m.(filtered := []), m.source);
    FixedPopulateFrom(p, cleared, m.source)
  }

  /** The Remove branch: the session leaves the view and is detached. */
  function FixedRemove(m: Model, id: Id): (r: Model)
    ensures r.world == m.world && r.source == m.source
    ensures r.filtered == RemoveById(m.filtered, id)
    ensures Subs(m, id) <= 1 ==> Subs(r, id) == 0
    ensures Subs(m, id) > 0 ==> Subs(r, id) + 1 == Subs(m, id)
    ensures forall x :: x != id ==> Subs(r, x) == Subs(m, x)
  {
    var view := RemoveById(m.filtered, id);
    var removed := Model(m.world, m.source, view, m.subs);
    assert Subs(removed, id) == Subs(m, id);
    Detach(removed, id)
  }

  /** `Sessions_CollectionChanged` with the repairs. */
  function FixedOnCollectionChanged(p: Applicability, m: Model, e: CollectionChange): (r: Outcome)
    requires e.action == Add ==> |e.newItems| == 1 && e.newItems[0] in m.world
    requires e.action == Remove ==> |e.oldItems| == 1
    requires e.action == Reset ==> forall x :: x in m.source ==> x in m.world
    ensures r.model.world == m.world && r.model.source == m.source
    ensures r.NotImplemented? <==> e.action in {Replace, Move}
    ensures r.NotImplemented? ==> r.model == m
    // Add: the new session ends up attached at most once; nothing else changes
    ensures e.action == Add && Subs(m, e.newItems[0]) <= 1 ==> Subs(r.model, e.newItems[0]) <= 1
    ensures e.action == Add ==> forall x :: x != e.newItems[0] ==> Subs(r.model, x) == Subs(m, x)
    // Remove: the removed session is detached
    ensures e.action == Remove && Subs(m, e.oldItems[0]) <= 1 ==> Subs(r.model, e.oldItems[0]) == 0
    ensures e.action == Remove ==> forall x :: x != e.oldItems[0] ==> Subs(r.model, x) == Subs(m, x)
    // Reset: attached exactly once to exactly the sessions of the source
    ensures e.action == Reset ==> forall x :: Subs(r.model, x) == (if x in m.source then 1 else 0)
  {
    match e.action
    case Add => Handled(FixedAddIfApplicable(p, m, e.newItems[0]))
    case Remove => Handled(FixedRemove(m, e.oldItems[0]))
    case Reset => Handled(FixedRepopulate(p, m))
    case Replace => NotImplemented(m)
    case Move => NotImplemented(m)
  }

  /** The repaired collection-change handler shows the same view as the
      handler as written, for every notification. */
  lemma FixedCollectionSameView(p: Applicability, m: Model, e: CollectionChange)
    requires e.action == Add ==> |e.newItems| == 1 && e.newItems[0] in m.world
    requires e.action == Remove ==> |e.oldItems| == 1
    requires e.action == Reset ==> forall x :: x in m.source ==> x in m.world
    ensures FixedOnCollectionChanged(p, m, e).model.filtered == OnCollectionChanged(p, m, e).model.filtered
  {
  }

  /** `Session_PropertyChanged` with the repairs: an attached session hears
      of the change once. */
  function FixedOnPropertyChanged(p: Applicability, m: Model, id: Id, name: string): (r: Model)
    requires id in m.world
    ensures r.world == m.world && r.source == m.source
    // the same view as the unrepaired handler
    ensures NoDup(m.filtered) ==> r.filtered == OnPropertyChanged(p, m, id, name).filtered
    ensures !IsWatched(name) || Subs(m, id) == 0 ==> r == m
    ensures forall x :: Subs(m, x) <= 1 ==> Subs(r, x) == Subs(m, x)
  {
    if IsWatched(name) && Subs(m, id) > 0 then FixedAddIfApplicable(p, m, id) else m
  }
}

=== FILE: filtered_collection.dfy ===
/** The filtered session collection: a view of a source collection holding
    the sessions the applicability callback accepts, kept current by the
    handlers for the source's collection-change notifications and for each
    session's property-change notifications. */
module FilteredCollection {
  import opened Sessions
  import opened IdSequences

  /** The state the filter observes and owns.
      - `world`: the current fields of every session object in existence;
      - `source`: the observed source collection, which the filter never changes;
      - `filtered`: the filter's own `Sessions` collection;
      - `subs`: how many times the filter's property-change handler is attached
        to each session (a missing key means zero). */
  datatype Model = Model(
    world: map<Id, SessionFields>,
    source: seq<Id>,
    filtered: seq<Id>,
    subs: map<Id, nat>)

  /** How many times the handler is attached to session `id`. */
  function Subs(m: Model, id: Id): nat {
    if id in m.subs then m.subs[id] else 0
  }

  /** Attaching the handler once more (`PropertyChanged +=`). */
  function Subscribe(m: Model, id: Id): (r: Model)
    ensures r.world == m.world && r.source == m.source && r.filtered == m.filtered
    ensures Subs(r, id) == Subs(m, id) + 1
    ensures forall x :: x != id ==> Subs(r, x) == Subs(m, x)
  {
    m.(subs := m.subs[id := Subs(m, id) + 1])
  }

  /** Reference definition: the ids of `ids` whose session the callback
      accepts, in the order of `ids`. */
  function Select(p: Applicability, world: map<Id, SessionFields>, ids: seq<Id>): (r: seq<Id>)
    requires forall x :: x in ids ==> x in world
    ensures forall x :: x in r <==> x in ids && p(world[x])
    ensures NoDup(ids) ==> NoDup(r)
  {
    if ids == [] then []
    else
      var rest := Select(p, world, ids[1..]);
      NoDupTail(ids);
      if p(world[ids[0]]) then [ids[0]] + rest else rest
  }

  /** The reconciliation step `AddIfApplicable(session)`. */
  function AddIfApplicable(p: Applicability, m: Model, id: Id): (r: Model)
    requires id in m.world
    ensures r.world == m.world && r.source == m.source
    // afterwards the view holds the session exactly when the callback accepts it
    ensures NoDup(m.filtered) ==> NoDup(r.filtered) && (id in r.filtered <==> p(m.world[id]))
    // no other session changes membership or subscription count
    ensures forall x :: x != id ==> (x in r.filtered <==> x in m.filtered)
    ensures forall x :: x != id ==> Subs(r, x) == Subs(m, x)
    ensures Subs(r, id) >= Subs(m, id)
    // a member still accepted: nothing changes at all
    ensures id in m.filtered && p(m.world[id]) ==> r == m
    // a member no longer accepted: that id alone leaves, the rest keep their
    // order, and the handler stays attached
    ensures id in m.filtered && !p(m.world[id]) ==>
      r.subs == m.subs && multiset(r.filtered) == multiset(m.filtered) - multiset{id}
    ensures id in m.filtered && !p(m.world[id]) && NoDup(m.filtered) ==>
      r.filtered == Without(m.filtered, id)
    // a non-member: one more attachment; appended at the end iff accepted
    ensures id !in m.filtered ==> Subs(r, id) == Subs(m, id) + 1
    ensures id !in m.filtered ==> (r.filtered == m.filtered + [id] <==> p(m.world[id]))
    ensures id !in m.filtered && !p(m.world[id]) ==> r.filtered == m.filtered
  {
    if ContainsById(m.filtered, id) then
      if !p(m.world[id]) then m.(filtered := RemoveById(m.filtered, id)) else m
    else
      var m' := Subscribe(m, id);
      if p(m.world[id]) then
        assert NoDup(m.filtered) ==> NoDup(m.filtered + [id]) by {
          if NoDup(m.filtered) {
            var s := m.filtered + [id];
            forall a, b | 0 <= a < b < |s| ensures s[a] != s[b] {
              if b == |m.filtered| { assert s[a] == m.filtered[a]; }
            }
          }
        }
        m'.(filtered := m.filtered + [id])
      else m'
  }

  /** `AddIfApplicable` applied to each id of `ids` in turn: the loop of
      `PopulateSessions`. */
  function PopulateFrom(p: Applicability, m: Model, ids: seq<Id>): (r: Model)
    requires forall x :: x in ids ==> x in m.world
    ensures r.world == m.world && r.source == m.source
    ensures NoDup(m.filtered) ==> NoDup(r.filtered)
    ensures NoDup(m.filtered) ==> forall x :: x in ids ==> (x in r.filtered <==> p(m.world[x]))
    ensures forall x :: x !in ids ==> (x in r.filtered <==> x in m.filtered)
    ensures forall x :: x !in ids ==> Subs(r, x) == Subs(m, x)
    ensures forall x :: Subs(r, x) >= Subs(m, x)
    ensures forall x :: x in ids && x !in m.filtered ==> Subs(r, x) > Subs(m, x)
    decreases |ids|
  {
    if ids == [] then m
    else PopulateFrom(p, AddIfApplicable(p, m, ids[0]), ids[1..])
  }

  /** Over distinct ids none of which is in the view yet, population appends
      exactly the accepted ones, in their order. */
  lemma {:induction false} PopulateInOrder(p: Applicability, m: Model, ids: seq<Id>)
    requires NoDup(ids)
    requires forall x :: x in ids ==> x in m.world && x !in m.filtered
    ensures PopulateFrom(p, m, ids).filtered == m.filtered + Select(p, m.world, ids)
    decreases |ids|
  {
    if ids != [] {
      var id, rest := ids[0], ids[1..];
      var m1 := AddIfApplicable(p, m, id);
      NoDupTail(ids);
      assert m1.world == m.world;
      assert forall x :: x in rest ==> x in m1.world && x !in m1.filtered by {
        forall x | x in rest ensures x in m1.world && x !in m1.filtered {
          assert x != id && x in ids;
        }
      }
      PopulateInOrder(p, m1, rest);
      var tail := Select(p, m.world, rest);
      if p(m.world[id]) {
        calc {
          PopulateFrom(p, m, ids).filtered;
          PopulateFrom(p, m1, rest).filtered;
          m1.filtered + tail;
          (m.filtered + [id]) + tail;
          { AppendAssoc(m.filtered, [id], tail); }
          m.filtered + ([id] + tail);
          m.filtered + Select(p, m.world, ids);
        }
      } else {
        calc {
          PopulateFrom(p, m, ids).filtered;
          PopulateFrom(p, m1, rest).filtered;
          m1.filtered + tail;
          m.filtered + Select(p, m.world, ids);
        }
      }
    }
  }

  /** Over distinct ids none of which is in the view yet, population attaches
      the handler exactly once more to each. */
  lemma {:induction false} PopulateSubscribesOnce(p: Applicability, m: Model, ids: seq<Id>)
    requires NoDup(ids)
    requires forall x :: x in ids ==> x in m.world && x !in m.filtered
    ensures forall x :: x in ids ==> Subs(PopulateFrom(p, m, ids), x) == Subs(m, x) + 1
    decreases |ids|
  {
    if ids != [] {
      var id, rest := ids[0], ids[1..];
      var m1 := AddIfApplicable(p, m, id);
      NoDupTail(ids);
      PopulateSubscribesOnce(p, m1, rest);
      assert PopulateFrom(p, m, ids) == PopulateFrom(p, m1, rest);
    }
  }

  lemma NoDupTail(ids: seq<Id>)
    requires ids != []
    ensures NoDup(ids) ==> NoDup(ids[1..]) && ids[0] !in ids[1..]
  {
    if NoDup(ids) {
      var rest := ids[1..];
      forall j | 0 <= j < |rest| ensures rest[j] != ids[0] {
        assert rest[j] == ids[j + 1];
      }
      forall a, b | 0 <= a < b < |rest| ensures rest[a] != rest[b] {
        assert rest[a] == ids[a + 1] && rest[b] == ids[b + 1];
      }
    }
  }

  /** The whole state of the filter is in step with its source: the view holds
      exactly the accepted sessions of the source, once each, and the handler
      is attached to every source session. */
  ghost predicate Synchronized(p: Applicability, m: Model) {
    && (forall x :: x in m.source ==> x in m.world)
    && NoDup(m.source)
    && NoDup(m.filtered)
    && (forall x :: x in m.filtered <==> x in m.source && p(m.world[x]))
    && (forall x :: x in m.source ==> Subs(m, x) > 0)
  }

  /** The constructor: an empty view, then `PopulateSessions` over the source. */
  function Create(p: Applicability, world: map<Id, SessionFields>, source: seq<Id>): (r: Model)
    requires forall x :: x in source ==> x in world
    ensures r.world == world && r.source == source
    ensures NoDup(r.filtered)
    ensures forall x :: x in r.filtered <==> x in source && p(world[x])
    ensures forall x :: Subs(r, x) > 0 <==> x in source
    ensures NoDup(source) ==> r.filtered == Select(p, world, source)
    ensures NoDup(source) ==> forall x :: x in source ==> Subs(r, x) == 1
    ensures NoDup(source) ==> Synchronized(p, r)
  {
    var m := Model(world, source, [], map[]);
    RepopulateInOrder(p, m);
    Repopulate(p, m)
  }

  /** The kinds of collection change a source can announce. */
  datatype Action = Add | Remove | Replace | Move | Reset

  /** A collection-change notification: its kind, new items and old items. */
  datatype CollectionChange = CollectionChange(action: Action, newItems: seq<Id>, oldItems: seq<Id>)

  /** What a handler leaves behind: the filter's state, either after normal
      completion or at the point a `NotImplementedException` escaped. */
  datatype Outcome = Handled(model: Model) | NotImplemented(model: Model)

  /** `Sessions_CollectionChanged`. `m.source` already holds the source's
      contents after the change. */
  function OnCollectionChanged(p: Applicability, m: Model, e: CollectionChange): (r: Outcome)
    requires e.action == Add ==> |e.newItems| == 1 && e.newItems[0] in m.world
    requires e.action == Remove ==> |e.oldItems| == 1
    requires e.action == Reset ==> forall x :: x in m.source ==> x in m.world
    // the handler never changes the source or any session
    ensures r.model.world == m.world && r.model.source == m.source
    // Replace and Move, and only they, fail, and they change nothing
    ensures r.NotImplemented? <==> e.action in {Replace, Move}
    ensures r.NotImplemented? ==> r.model == m
    ensures NoDup(m.filtered) ==> NoDup(r.model.filtered)
    // Add: the new session is reconsidered and nothing else changes
    ensures e.action == Add && NoDup(m.filtered) ==>
      (e.newItems[0] in r.model.filtered <==> p(m.world[e.newItems[0]]))
    ensures e.action == Add ==> forall x :: x != e.newItems[0] ==>
      (x in r.model.filtered <==> x in m.filtered) && Subs(r.model, x) == Subs(m, x)
    ensures e.action == Add ==> Subs(r.model, e.newItems[0]) >= Subs(m, e.newItems[0])
    // Remove: the old session leaves the view whatever the callback says;
    // every handler stays attached
    ensures e.action == Remove ==> r.model.subs == m.subs
    ensures e.action == Remove ==>
      multiset(r.model.filtered) == multiset(m.filtered) - multiset{e.oldItems[0]}
    ensures e.action == Remove && NoDup(m.filtered) ==>
      r.model.filtered == Without(m.filtered, e.oldItems[0])
    // Reset: the view is rebuilt from the source and every source session
    // gets one more attachment
    ensures e.action == Reset ==>
      forall x :: x in r.model.filtered <==> x in m.source && p(m.world[x])
    ensures e.action == Reset ==>
      forall x :: (x in m.source ==> Subs(r.model, x) > Subs(m, x)) && (x !in m.source ==> Subs(r.model, x) == Subs(m, x))
    ensures e.action == Reset && NoDup(m.source) ==>
      r.model.filtered == Select(p, m.world, m.source)
    ensures e.action == Reset && NoDup(m.source) ==>
      forall x :: x in m.source ==> Subs(r.model, x) == Subs(m, x) + 1
  {
    match e.action
    case Add => Handled(AddIfApplicable(p, m, e.newItems[0]))
    case Remove => Handled(m.(filtered := RemoveById(m.filtered, e.oldItems[0])))
    case Reset =>
      RepopulateInOrder(p, m);
      Handled(Repopulate(p, m))
    case Replace => NotImplemented(m)
    case Move => NotImplemented(m)
  }

  /** The Reset branch: `Sessions.Clear()` then `PopulateSessions()`. */
  function Repopulate(p: Applicability, m: Model): (r: Model)
    requires forall x :: x in m.source ==> x in m.world
    ensures r.world == m.world && r.source == m.source
    ensures NoDup(r.filtered)
    ensures forall x :: x in r.filtered <==> x in m.source && p(m.world[x])
    ensures forall x :: x in m.source ==> Subs(r, x) > Subs(m, x)
    ensures forall x :: x !in m.source ==> Subs(r, x) == Subs(m, x)
  {
    PopulateFrom(p, m.(filtered := []), m.source)
  }

  /** Over a source of distinct sessions, Reset rebuilds the view in source
      order and attaches the handler once more to every source session. */
  lemma RepopulateInOrder(p: Applicability, m: Model)
    requires forall x :: x in m.source ==> x in m.world
    ensures NoDup(m.source) ==> Repopulate(p, m).filtered == Select(p, m.world, m.source)
    ensures NoDup(m.source) ==>
      forall x :: x in m.source ==> Subs(Repopulate(p, m), x) == Subs(m, x) + 1
  {
    if NoDup(m.source) {
      PopulateInOrder(p, m.(filtered := []), m.source);
      PopulateSubscribesOnce(p, m.(filtered := []), m.source);
    }
  }


  /** The handler run once for each time it is attached to session `id`:
      a .NET event invokes every attached delegate, and the number attached
      when the event is raised is the number of calls. */
  function Deliver(p: Applicability, m: Model, id: Id, n: nat): (r: Model)
    requires id in m.world
    ensures r.world == m.world && r.source == m.source
    ensures NoDup(m.filtered) ==> NoDup(r.filtered)
    ensures forall x :: x != id ==> (x in r.filtered <==> x in m.filtered)
    ensures forall x :: x != id ==> Subs(r, x) == Subs(m, x)
    ensures Subs(r, id) >= Subs(m, id)
    ensures n == 0 ==> r == m
    // the first call settles the view; later calls only re-attach
    ensures n > 0 && NoDup(m.filtered) ==> r.filtered == AddIfApplicable(p, m, id).filtered
    ensures n > 0 && NoDup(m.filtered) && p(m.world[id]) ==>
      Subs(r, id) == Subs(m, id) + (if id in m.filtered then 0 else 1)
    ensures n > 0 && NoDup(m.filtered) && !p(m.world[id]) ==>
      Subs(r, id) == Subs(m, id) + n - (if id in m.filtered then 1 else 0)
    decreases n
  {
    if n == 0 then m
    else Deliver(p, AddIfApplicable(p, m, id), id, n - 1)
  }

  /** `Session_PropertyChanged`, as delivered to every attachment of the
      handler to session `id`; `m.world[id]` already holds the new fields. */
  function OnPropertyChanged(p: Applicability, m: Model, id: Id, name: string): (r: Model)
    requires id in m.world
    ensures r.world == m.world && r.source == m.source
    // a change of any other property, or of an unobserved session, is ignored
    ensures !IsWatched(name) || Subs(m, id) == 0 ==> r == m
    // a watched change of an observed session settles its membership
    ensures IsWatched(name) && Subs(m, id) > 0 && NoDup(m.filtered) ==>
      (id in r.filtered <==> p(m.world[id]))
    ensures IsWatched(name) && Subs(m, id) > 0 ==> Subs(r, id) >= Subs(m, id)
    ensures NoDup(m.filtered) ==> NoDup(r.filtered)
    ensures forall x :: x != id ==> (x in r.filtered <==> x in m.filtered)
    ensures forall x :: x != id ==> Subs(r, x) == Subs(m, x)
  {
    if IsWatched(name) then Deliver(p, m, id, Subs(m, id)) else m
  }
}

=== FILE: id_sequences.dfy ===
/** Ordered collections of sessions, represented by their ids, and the
    id-based search and removal the filtered collection performs on them. */
module IdSequences {
  import opened Sessions

  /** No id occurs twice. */
  predicate NoDup(s: seq<Id>) {
    forall i, j :: 0 <= i < j < |s| ==> s[i] != s[j]
  }

  /** Regrouping a concatenation, stated once so that proofs using it stay cheap. */
  lemma AppendAssoc(a: seq<Id>, b: seq<Id>, c: seq<Id>)
    ensures (a + b) + c == a + (b + c)
  {
  }

  /** Where a linear search found an id. */
  datatype Position = NotFound | At(index: nat)

  /** Linear search from the front for the first element equal to `id`. */
  function FindIndex(s: seq<Id>, id: Id): (r: Position)
    ensures r.NotFound? <==> id !in s
    ensures r.At? ==> r.index < |s| && s[r.index] == id && id !in s[..r.index]
  {
    if s == [] then NotFound
    else if s[0] == id then At(0)
    else
      match FindIndex(s[1..], id)
      case NotFound => NotFound
      case At(k) =>
        assert s[..k + 1] == [s[0]] + s[1..][..k];
        At(k + 1)
  }

  /** Membership by id (`ContainsById`). */
  function ContainsById(s: seq<Id>, id: Id): (b: bool)
    ensures b <==> id in s
  {
    FindIndex(s, id).At?
  }

  /** Reference definition: every element of `s` other than `id`, in order. */
  function Without(s: seq<Id>, id: Id): (r: seq<Id>)
    ensures forall x :: x in r <==> x in s && x != id
    ensures |r| <= |s|
  {
    if s == [] then []
    else (if s[0] == id then [] else [s[0]]) + Without(s[1..], id)
  }

  lemma {:induction false} WithoutAbsent(s: seq<Id>, id: Id)
    requires id !in s
    ensures Without(s, id) == s
  {
    if s != [] {
      WithoutAbsent(s[1..], id);
    }
  }

  lemma {:induction false} WithoutConcat(a: seq<Id>, b: seq<Id>, id: Id)
    ensures Without(a + b, id) == Without(a, id) + Without(b, id)
  {
    if a == [] {
      assert a + b == b;
    } else {
      assert (a + b)[1..] == a[1..] + b;
      WithoutConcat(a[1..], b, id);
    }
  }

  /** Removal of the first element equal to `id`; nothing happens when there
      is none. This is both `RemoveById` and `Collection.Remove`, which
      compares references: a session's reference and its id identify it
      alike. */
  function RemoveById(s: seq<Id>, id: Id): (r: seq<Id>)
    ensures id !in s ==> r == s
    ensures id in s ==> |r| == |s| - 1
    ensures multiset(r) == multiset(s) - multiset{id}
    ensures forall x :: x != id ==> (x in r <==> x in s)
    ensures NoDup(s) ==> NoDup(r) && id !in r && r == Without(s, id)
    // it is the first occurrence that goes
    ensures id in s ==> exists i :: 0 <= i < |s| && s[i] == id && id !in s[..i] && r == s[..i] + s[i + 1..]
  {
    match FindIndex(s, id)
    case NotFound => WithoutAbsent(s, id); s
    case At(i) =>
      DeleteAtNoDup(s, i);
      DeleteAtIsWithout(s, i);
      DeleteAt(s, i)
  }

  /** Deleting the one position holding an id keeps every other element in
      its order. */
  lemma DeleteAtIsWithout(s: seq<Id>, i: nat)
    requires i < |s|
    ensures s[i] !in s[..i] + s[i + 1..] ==> DeleteAt(s, i) == Without(s, s[i])
  {
    var a, b, id := s[..i], s[i + 1..], s[i];
    if id !in a + b {
      assert id !in a && id !in b;
      assert s == a + [id] + b;
      WithoutSplice(a, b, id);
      assert Without(s, id) == a + b;
    }
  }

  lemma {:induction false} WithoutSplice(a: seq<Id>, b: seq<Id>, id: Id)
    requires id !in a && id !in b
    ensures Without(a + [id] + b, id) == a + b
  {
    var front := a + [id];
    WithoutConcat(front, b, id);
    WithoutConcat(a, [id], id);
    WithoutAbsent(a, id);
    WithoutAbsent(b, id);
    assert Without([id], id) == [];
    assert Without(front, id) == a;
  }

  /** `s` with `x` inserted so that it lands at position `i`. */
  function InsertAt(s: seq<Id>, i: nat, x: Id): (r: seq<Id>)
    requires i <= |s|
    ensures |r| == |s| + 1 && r[i] == x
    ensures forall y :: y in r <==> y == x || y in s
    ensures NoDup(s) && x !in s ==> NoDup(r)
  {
    var r := s[..i] + [x] + s[i..];
    assert s == s[..i] + s[i..];
    assert forall y :: y in r <==> y in s[..i] || y == x || y in s[i..];
    assert NoDup(s) && x !in s ==> NoDup(r) by {
      if NoDup(s) && x !in s {
        forall a, b | 0 <= a < b < |r| ensures r[a] != r[b] {
          if a != i && b != i {
            var a' := if a < i then a else a - 1;
            var b' := if b < i then b else b - 1;
            assert r[a] == s[a'] && r[b] == s[b'];
          } else if a == i {
            assert r[b] == s[b - 1];
          } else {
            assert r[a] == s[a];
          }
        }
      }
    }
    r
  }

  /** `s` without the element at position `i`. */
  function DeleteAt(s: seq<Id>, i: nat): (r: seq<Id>)
    requires i < |s|
    ensures r == s[..i] + s[i + 1..]
    ensures |r| == |s| - 1
    ensures multiset(r) == multiset(s) - multiset{s[i]}
    ensures forall y :: y != s[i] ==> (y in r <==> y in s)
    ensures NoDup(s) ==> NoDup(r) && s[i] !in r
  {
    var r := s[..i] + s[i + 1..];
    assert s == s[..i] + [s[i]] + s[i + 1..];
    assert forall y :: y in r <==> y in s[..i] || y in s[i + 1..];
    DeleteAtNoDup(s, i);
    r
  }

  lemma DeleteAtNoDup(s: seq<Id>, i: nat)
    requires i < |s|
    ensures NoDup(s) ==> NoDup(s[..i] + s[i + 1..]) && s[i] !in s[..i] + s[i + 1..]
  {
    if NoDup(s) {
      var r := s[..i] + s[i + 1..];
      forall j | 0 <= j < |r| ensures r[j] != s[i] {
        if j < i { assert r[j] == s[j]; } else { assert r[j] == s[j + 1]; }
      }
      forall a, b | 0 <= a < b < |r| ensures r[a] != r[b] {
        var a' := if a < i then a else a + 1;
        var b' := if b < i then b else b + 1;
        assert r[a] == s[a'] && r[b] == s[b'];
      }
    }
  }
}

=== FILE: scenarios.dfy ===
/** Concrete runs: a worked example, and the two inputs that show the
    subscription leaks of the handlers as written. */
module Scenarios {
  import opened Sessions
  import opened IdSequences
  import opened FilteredCollection
  import opened CorrectedCollection
  import opened Traces

  /** The callback of the examples: a session is shown while it is active. */
  function ActiveOnly(): Applicability {
    (f: SessionFields) => f.state == Active
  }

  function Fields(state: AudioSessionState, elsewhere: bool): SessionFields {
    SessionFields(state, elsewhere, 100, false)
  }

  function ScenarioWorld(): map<Id, SessionFields> {
    map["A" := Fields(Active, false), "B" := Fields(Inactive, false)]
  }

  function BecomesActive(): Step {
    Changed("B", StateProperty, Fields(Active, false))
  }

  function ScenarioStartModel(): Model {
    Model(ScenarioWorld(), ["A", "B"], ["A"], map["A" := 1, "B" := 1])
  }

  function ScenarioEndModel(): Model {
    Model(ScenarioWorld()["B" := Fields(Active, false)], ["B"], ["B"], map["A" := 1, "B" := 2])
  }

  function ScenarioMidModel(): Model {
    Model(ScenarioWorld()["B" := Fields(Active, false)], ["A", "B"], ["A", "B"], map["A" := 1, "B" := 2])
  }

  /** Construction over [A, B] shows A and attaches to both once. */
  lemma ScenarioStart()
    ensures Create(ActiveOnly(), ScenarioWorld(), ["A", "B"]) == ScenarioStartModel()
  {
    var p, w := ActiveOnly(), ScenarioWorld();
    var m0 := Create(p, w, ["A", "B"]);
    assert NoDup(["A", "B"]);
    assert Select(p, w, ["B"]) == [];
    assert Select(p, w, ["A", "B"]) == ["A"];
    assert Subs(m0, "A") == 1 && Subs(m0, "B") == 1;
    assert m0.subs.Keys == {"A", "B"};
  }

  /** B becoming active joins the view at the end, and is attached again. */
  lemma ScenarioJoin()
    ensures Apply(AsWritten, ActiveOnly(), ScenarioStartModel(), BecomesActive()) == Handled(ScenarioMidModel())
  {
    var p, w1 := ActiveOnly(), ScenarioWorld()["B" := Fields(Active, false)];
    var e1 := Model(w1, ["A", "B"], ["A"], map["A" := 1, "B" := 1]);
    assert Environment(ScenarioStartModel(), BecomesActive()) == e1;
    assert Deliver(p, e1, "B", 1) == AddIfApplicable(p, e1, "B");
    assert !ContainsById(["A"], "B");
  }

  /** Removing A from the source leaves B alone in the view. */
  lemma ScenarioRemove()
    ensures Apply(AsWritten, ActiveOnly(), ScenarioMidModel(), RemoveAt(0)) == Handled(ScenarioEndModel())
  {
    var m := ScenarioMidModel();
    assert DeleteAt(["A", "B"], 0) == ["B"];
    var e := m.(source := ["B"]);
    assert Environment(m, RemoveAt(0)) == e;
    assert ChangeOf(m, RemoveAt(0)) == CollectionChange(Remove, [], ["A"]);
    assert RemoveById(["A", "B"], "A") == ["B"];
    assert OnCollectionChanged(ActiveOnly(), e, CollectionChange(Remove, [], ["A"])) == Handled(e.(filtered := ["B"]));
  }

  lemma ScenarioTail()
    ensures ValidRun(AsWritten, ActiveOnly(), ScenarioMidModel(), [RemoveAt(0)])
    ensures Run(AsWritten, ActiveOnly(), ScenarioMidModel(), [RemoveAt(0)]) == Handled(ScenarioEndModel())
  {
    ScenarioRemove();
    var steps := [RemoveAt(0)];
    assert steps[0] == RemoveAt(0) && steps[1..] == [];
    RunStep(AsWritten, ActiveOnly(), ScenarioMidModel(), steps, ScenarioEndModel());
  }

  lemma ScenarioRun()
    ensures ValidRun(AsWritten, ActiveOnly(), ScenarioStartModel(), [BecomesActive(), RemoveAt(0)])
    ensures Run(AsWritten, ActiveOnly(), ScenarioStartModel(), [BecomesActive(), RemoveAt(0)])
            == Handled(ScenarioEndModel())
  {
    ScenarioJoin();
    ScenarioTail();
    var steps := [BecomesActive(), RemoveAt(0)];
    assert steps[0] == BecomesActive() && steps[1..] == [RemoveAt(0)];
    RunStep(AsWritten, ActiveOnly(), ScenarioStartModel(), steps, ScenarioMidModel());
  }

  /** Source [A (active), B (inactive)]: the view shows A; B becoming active
      joins it at the end; removing A from the source leaves B. B, attached
      at construction, is attached a second time when it joins. */
  lemma ExampleScenario()
    ensures Create(ActiveOnly(), ScenarioWorld(), ["A", "B"]).filtered == ["A"]
    ensures ValidRun(AsWritten, ActiveOnly(), Create(ActiveOnly(), ScenarioWorld(), ["A", "B"]), [BecomesActive(), RemoveAt(0)])
    ensures Run(AsWritten, ActiveOnly(), Create(ActiveOnly(), ScenarioWorld(), ["A", "B"]), [BecomesActive(), RemoveAt(0)])
            == Handled(ScenarioEndModel())
    ensures Apply(AsWritten, ActiveOnly(), Create(ActiveOnly(), ScenarioWorld(), ["A", "B"]), BecomesActive()).model.filtered
            == ["A", "B"]
    ensures Run(AsWritten, ActiveOnly(), Create(ActiveOnly(), ScenarioWorld(), ["A", "B"]), [BecomesActive(), RemoveAt(0)])
            .model.filtered == ["B"]
  {
    ScenarioStart();
    ScenarioJoin();
    ScenarioRun();
  }

  // ---- A removed session comes back (handler left attached on Remove) ----

  function LoneActive(): Model {
    Model(map["A" := Fields(Active, false)], ["A"], ["A"], map["A" := 1])
  }

  function MovesElsewhere(): Step {
    Changed("A", ActiveOnOtherDeviceProperty, Fields(Active, true))
  }

  /** A has left the source and the view, but is still attached once. */
  function LoneActiveGone(h: Handlers): Model {
    Model(map["A" := Fields(Active, false)], [], [], map["A" := if h == AsWritten then 1 else 0])
  }

  /** Construction over one active session A shows it, attached once. */
  lemma LoneActiveStart()
    ensures Create(ActiveOnly(), map["A" := Fields(Active, false)], ["A"]) == LoneActive()
  {
    var p, w := ActiveOnly(), map["A" := Fields(Active, false)];
    var m := Create(p, w, ["A"]);
    assert NoDup(["A"]);
    assert Select(p, w, ["A"]) == ["A"];
    assert Subs(m, "A") == 1;
    assert m.subs.Keys == {"A"};
  }

  lemma LoneActiveRemoved(h: Handlers)
    ensures Apply(h, ActiveOnly(), LoneActive(), RemoveAt(0)) == Handled(LoneActiveGone(h))
  {
    assert DeleteAt(["A"], 0) == [];
    assert RemoveById(["A"], "A") == [];
  }

  lemma GoneSessionChanges(h: Handlers)
    ensures Apply(h, ActiveOnly(), LoneActiveGone(h), MovesElsewhere())
            == Handled(if h == AsWritten then Model(map["A" := Fields(Active, true)], [], ["A"], map["A" := 2])
                       else Model(map["A" := Fields(Active, true)], [], [], map["A" := 0]))
  {
    var e := LoneActiveGone(h).(world := map["A" := Fields(Active, true)]);
    assert Environment(LoneActiveGone(h), MovesElsewhere()) == e;
    if h == AsWritten {
      assert Subs(e, "A") == 1;
      assert Deliver(ActiveOnly(), e, "A", 1) == AddIfApplicable(ActiveOnly(), e, "A");
      assert AddIfApplicable(ActiveOnly(), e, "A") == Model(map["A" := Fields(Active, true)], [], ["A"], map["A" := 2]);
    } else {
      assert Subs(e, "A") == 0;
      assert FixedOnPropertyChanged(ActiveOnly(), e, "A", ActiveOnOtherDeviceProperty) == e;
    }
  }

  lemma RemoveThenChange(h: Handlers)
    ensures ValidRun(h, ActiveOnly(), LoneActive(), [RemoveAt(0), MovesElsewhere()])
    ensures Run(h, ActiveOnly(), LoneActive(), [RemoveAt(0), MovesElsewhere()])
            == Handled(if h == AsWritten then Model(map["A" := Fields(Active, true)], [], ["A"], map["A" := 2])
                       else Model(map["A" := Fields(Active, true)], [], [], map["A" := 0]))
  {
    LoneActiveRemoved(h);
    GoneSessionChanges(h);
    var last := if h == AsWritten then Model(map["A" := Fields(Active, true)], [], ["A"], map["A" := 2])
                else Model(map["A" := Fields(Active, true)], [], [], map["A" := 0]);
    var tail := [MovesElsewhere()];
    assert tail[0] == MovesElsewhere() && tail[1..] == [];
    RunStep(h, ActiveOnly(), LoneActiveGone(h), tail, last);
    var steps := [RemoveAt(0), MovesElsewhere()];
    assert steps[0] == RemoveAt(0) && steps[1..] == tail;
    RunStep(h, ActiveOnly(), LoneActive(), steps, LoneActiveGone(h));
  }

  /** As written: A is removed from the source, yet a later change of A puts
      it back into the view, out of step with the source. */
  lemma RemovedSessionComesBack()
    ensures ValidRun(AsWritten, ActiveOnly(), LoneActive(), [RemoveAt(0), MovesElsewhere()])
    ensures Run(AsWritten, ActiveOnly(), LoneActive(), [RemoveAt(0), MovesElsewhere()]).model.filtered == ["A"]
    ensures Run(AsWritten, ActiveOnly(), LoneActive(), [RemoveAt(0), MovesElsewhere()]).model.source == []
    ensures !Synchronized(ActiveOnly(), Run(AsWritten, ActiveOnly(), LoneActive(), [RemoveAt(0), MovesElsewhere()]).model)
  {
    RemoveThenChange(AsWritten);
    var r := Run(AsWritten, ActiveOnly(), LoneActive(), [RemoveAt(0), MovesElsewhere()]).model;
    assert "A" in r.filtered && "A" !in r.source;
  }

  /** Repaired: the same run leaves the view empty, with A detached. */
  lemma RemovedSessionStaysOut()
    ensures ValidRun(Corrected, ActiveOnly(), LoneActive(), [RemoveAt(0), MovesElsewhere()])
    ensures Run(Corrected, ActiveOnly(), LoneActive(), [RemoveAt(0), MovesElsewhere()]).model.filtered == []
    ensures Subs(Run(Corrected, ActiveOnly(), LoneActive(), [RemoveAt(0), MovesElsewhere()]).model, "A") == 0
  {
    RemoveThenChange(Corrected);
  }

  // ---- Attachments accumulate (+= on every reconsideration) ----

  function LoneInactive(): Model {
    Model(map["A" := Fields(Inactive, false)], ["A"], [], map["A" := 1])
  }

  function Expires(): Step {
    Changed("A", StateProperty, Fields(Expired, false))
  }

  function Reactivates(): Step {
    Changed("A", StateProperty, Fields(Inactive, false))
  }

  /** The hidden session A after expiring, attached `n` times. */
  function ExpiredAttached(n: nat): Model {
    Model(map["A" := Fields(Expired, false)], ["A"], [], map["A" := n])
  }

  /** The hidden session A after going inactive again, attached `n` times. */
  function InactiveAttached(n: nat): Model {
    Model(map["A" := Fields(Inactive, false)], ["A"], [], map["A" := n])
  }

  /** Construction over one inactive session A hides it, attached once. */
  lemma LoneInactiveStart()
    ensures Create(ActiveOnly(), map["A" := Fields(Inactive, false)], ["A"]) == LoneInactive()
  {
    var p, w := ActiveOnly(), map["A" := Fields(Inactive, false)];
    var m := Create(p, w, ["A"]);
    assert NoDup(["A"]);
    assert Select(p, w, ["A"]) == [];
    assert Subs(m, "A") == 1;
    assert m.subs.Keys == {"A"};
  }

  lemma ExpiresStep(h: Handlers)
    ensures Apply(h, ActiveOnly(), LoneInactive(), Expires())
            == Handled(ExpiredAttached(if h == AsWritten then 2 else 1))
  {
    var e := LoneInactive().(world := map["A" := Fields(Expired, false)]);
    assert Environment(LoneInactive(), Expires()) == e;
    if h == AsWritten {
      assert Deliver(ActiveOnly(), e, "A", 1) == AddIfApplicable(ActiveOnly(), e, "A");
    }
  }

  lemma ReactivatesStep(h: Handlers)
    ensures Apply(h, ActiveOnly(), ExpiredAttached(if h == AsWritten then 2 else 1), Reactivates())
            == Handled(InactiveAttached(if h == AsWritten then 4 else 1))
  {
    if h == AsWritten {
      var e := ExpiredAttached(2).(world := map["A" := Fields(Inactive, false)]);
      assert Environment(ExpiredAttached(2), Reactivates()) == e;
      var once := AddIfApplicable(ActiveOnly(), e, "A");
      assert once == e.(subs := map["A" := 3]);
      assert Deliver(ActiveOnly(), once, "A", 1) == AddIfApplicable(ActiveOnly(), once, "A");
      assert Deliver(ActiveOnly(), e, "A", 2) == InactiveAttached(4);
    }
  }

  lemma TwoStateChanges(h: Handlers)
    ensures ValidRun(h, ActiveOnly(), LoneInactive(), [Expires(), Reactivates()])
    ensures Run(h, ActiveOnly(), LoneInactive(), [Expires(), Reactivates()])
            == Handled(InactiveAttached(if h == AsWritten then 4 else 1))
  {
    ExpiresStep(h);
    ReactivatesStep(h);
    var mid := ExpiredAttached(if h == AsWritten then 2 else 1);
    var tail := [Reactivates()];
    assert tail[0] == Reactivates() && tail[1..] == [];
    RunStep(h, ActiveOnly(), mid, tail, InactiveAttached(if h == AsWritten then 4 else 1));
    var steps := [Expires(), Reactivates()];
    assert steps[0] == Expires() && steps[1..] == tail;
    RunStep(h, ActiveOnly(), LoneInactive(), steps, mid);
  }

  /** As written: two state changes of a hidden session leave the handler
      attached to it four times. */
  lemma AttachmentsAccumulate()
    ensures ValidRun(AsWritten, ActiveOnly(), LoneInactive(), [Expires(), Reactivates()])
    ensures Subs(Run(AsWritten, ActiveOnly(), LoneInactive(), [Expires(), Reactivates()]).model, "A") == 4
  {
    TwoStateChanges(AsWritten);
  }

  /** Repaired: the same run keeps exactly one attachment. */
  lemma AttachmentStaysSingle()
    ensures ValidRun(Corrected, ActiveOnly(), LoneInactive(), [Expires(), Reactivates()])
    ensures Subs(Run(Corrected, ActiveOnly(), LoneInactive(), [Expires(), Reactivates()]).model, "A") == 1
  {
    TwoStateChanges(Corrected);
  }
}

=== FILE: sessions.dfy ===
/** Audio sessions as the filtered collection sees them: a stable identity,
    the mutable fields a property-change notification can report, and the
    applicability callback that decides membership of the filtered view. */
module Sessions {

  /** The stable identity of a session. The model assumes that two
      references to one session object share an id and that distinct session
      objects have distinct ids, so that comparing references and comparing
      ids agree. */
  type Id = string

  /** The states of a session in the Windows audio session API. */
  datatype AudioSessionState = Inactive | Active | Expired

  /** The mutable fields of one session object. `State` and
      `ActiveOnOtherDevice` are the two the filter listens for; volume and mute
      stand for every other property a session reports a change of. */
  datatype SessionFields = SessionFields(
    state: AudioSessionState,
    activeOnOtherDevice: bool,
    volume: int,
    isMuted: bool)

  /** A session object as it appears in a collection-change notification. */
  datatype Session = Session(id: Id, fields: SessionFields)

  /** The applicability callback given to the constructor. It is a pure
      function of the session's current fields. */
  type Applicability = SessionFields -> bool

  const StateProperty: string := "State"
  const ActiveOnOtherDeviceProperty: string := "ActiveOnOtherDevice"

  /** The property names whose change makes the filter reconsider a session. */
  predicate IsWatched(name: string) {
    name == StateProperty || name == ActiveOnOtherDeviceProperty
  }

  /** A notification named `name` truthfully describes the change from
      `before` to `after`: a change announced under any other name leaves both
      watched fields alone. */
  predicate Honest(name: string, before: SessionFields, after: SessionFields) {
    !IsWatched(name) ==>
      after.state == before.state && after.activeOnOtherDevice == before.activeOnOtherDevice
  }

  /** The callback looks at nothing but the two watched fields. */
  ghost predicate ReadsOnlyWatched(p: Applicability) {
    forall f: SessionFields, g: SessionFields ::
      f.state == g.state && f.activeOnOtherDevice == g.activeOnOtherDevice ==> p(f) == p(g)
  }
}

=== FILE: synchronization.dfy ===
/** When the filter's view stays equal to the accepted part of its source.

    As written, it does for every run whose steps keep source ids distinct and
    name their changes truthfully, provided the callback reads only the two
    watched fields and no step revives a removed session; a reviving step
    always breaks it. With the repaired handlers it holds for every such run,
    revivals included, and each source session is attached exactly once. */
module Synchronization {
  import opened Sessions
  import opened IdSequences
  import opened FilteredCollection
  import opened CorrectedCollection
  import opened Traces

  lemma InsertKeepsSync(p: Applicability, m: Model, i: nat, s: Session)
    requires Synchronized(p, m)
    requires i <= |m.source| && s.id !in m.source
    ensures Apply(AsWritten, p, m, Insert(i, s)).Handled?
    ensures Synchronized(p, Apply(AsWritten, p, m, Insert(i, s)).model)
  {
    var e := Environment(m, Insert(i, s));
    var r := Apply(AsWritten, p, m, Insert(i, s)).model;
    assert r == AddIfApplicable(p, e, s.id);
    assert s.id !in m.filtered;
    forall x | x != s.id ensures (x in r.filtered <==> x in r.source && p(r.world[x])) {
      assert x in r.source <==> x in m.source;
    }
    forall x | x in r.source ensures Subs(r, x) > 0 {
      if x != s.id {
        assert x in m.source;
      }
    }
  }

  lemma RemoveKeepsSync(p: Applicability, m: Model, i: nat)
    requires Synchronized(p, m)
    requires i < |m.source|
    ensures Apply(AsWritten, p, m, RemoveAt(i)).Handled?
    ensures Synchronized(p, Apply(AsWritten, p, m, RemoveAt(i)).model)
  {
    var id := m.source[i];
    var r := Apply(AsWritten, p, m, RemoveAt(i)).model;
    assert r.source == DeleteAt(m.source, i);
    assert r.filtered == RemoveById(m.filtered, id);
    assert r.world == m.world && r.subs == m.subs;
    forall x ensures (x in r.filtered <==> x in r.source && p(r.world[x])) {
      if x != id {
        assert x in r.source <==> x in m.source;
      }
    }
  }

  lemma ResetKeepsSync(p: Applicability, m: Model, ids: seq<Id>, added: map<Id, SessionFields>)
    requires Synchronized(p, m)
    requires (forall x :: x in ids ==> x in m.world || x in added) && NoDup(ids)
    ensures Apply(AsWritten, p, m, ResetTo(ids, added)).Handled?
    ensures Synchronized(p, Apply(AsWritten, p, m, ResetTo(ids, added)).model)
  {
    var e := Environment(m, ResetTo(ids, added));
    var r := Apply(AsWritten, p, m, ResetTo(ids, added)).model;
    assert r == Repopulate(p, e);
  }

  /** A change of a property the filter does not watch leaves every
      session's acceptance as it was. */
  lemma UnwatchedChangeKeepsSync(p: Applicability, m: Model, id: Id, name: string, f: SessionFields)
    requires ReadsOnlyWatched(p)
    requires Synchronized(p, m)
    requires id in m.world && Honest(name, m.world[id], f) && !IsWatched(name)
    ensures Apply(AsWritten, p, m, Changed(id, name, f)).Handled?
    ensures Synchronized(p, Apply(AsWritten, p, m, Changed(id, name, f)).model)
  {
    var e := Environment(m, Changed(id, name, f));
    assert p(f) == p(m.world[id]);
    assert Apply(AsWritten, p, m, Changed(id, name, f)).model == e;
    forall x | x in e.source ensures p(e.world[x]) == p(m.world[x]) {
    }
  }

  lemma WatchedChangeKeepsSync(p: Applicability, m: Model, id: Id, name: string, f: SessionFields)
    requires Synchronized(p, m)
    requires IsWatched(name)
    requires !Revives(p, m, Changed(id, name, f))
    ensures Apply(AsWritten, p, m, Changed(id, name, f)).Handled?
    ensures Synchronized(p, Apply(AsWritten, p, m, Changed(id, name, f)).model)
  {
    var e := Environment(m, Changed(id, name, f));
    var r := Apply(AsWritten, p, m, Changed(id, name, f)).model;
    assert r == OnPropertyChanged(p, e, id, name);
    assert e.world == m.world[id := f];
    if Subs(m, id) == 0 {
      assert id !in m.source && id !in m.filtered;
      assert r == e;
    } else {
      assert id in r.filtered <==> p(f);
      assert id in r.filtered ==> id in r.source;
    }
  }

  lemma ChangeKeepsSync(p: Applicability, m: Model, id: Id, name: string, f: SessionFields)
    requires ReadsOnlyWatched(p)
    requires Synchronized(p, m)
    requires id in m.world && Honest(name, m.world[id], f)
    requires !Revives(p, m, Changed(id, name, f))
    ensures Apply(AsWritten, p, m, Changed(id, name, f)).Handled?
    ensures Synchronized(p, Apply(AsWritten, p, m, Changed(id, name, f)).model)
  {
    if IsWatched(name) {
      WatchedChangeKeepsSync(p, m, id, name, f);
    } else {
      UnwatchedChangeKeepsSync(p, m, id, name, f);
    }
  }

  /** Every supported step the outside world can make keeps the as-written
      filter in step with its source, unless it revives a removed session. */
  lemma StepKeepsSync(p: Applicability, m: Model, step: Step)
    requires ReadsOnlyWatched(p)
    requires Synchronized(p, m)
    requires Valid(m, step) && Assumed(m, step) && !Revives(p, m, step)
    ensures Apply(AsWritten, p, m, step).Handled? <==> !Unsupported(step)
    ensures Apply(AsWritten, p, m, step).Handled? ==> Synchronized(p, Apply(AsWritten, p, m, step).model)
  {
    match step
    case Insert(i, s) => InsertKeepsSync(p, m, i, s);
    case RemoveAt(i) => RemoveKeepsSync(p, m, i);
    case ResetTo(ids, added) => ResetKeepsSync(p, m, ids, added);
    case ReplaceAt(_, _) =>
    case MoveItem(_, _) =>
    case Changed(id, name, f) => ChangeKeepsSync(p, m, id, name, f);
  }

  /** A reviving step always puts a session that is not in the source into
      the view. */
  lemma RevivalBreaksSync(p: Applicability, m: Model, step: Step)
    requires Synchronized(p, m)
    requires Valid(m, step) && Revives(p, m, step)
    ensures Apply(AsWritten, p, m, step).Handled?
    ensures step.id in Apply(AsWritten, p, m, step).model.filtered
    ensures step.id !in Apply(AsWritten, p, m, step).model.source
    ensures !Synchronized(p, Apply(AsWritten, p, m, step).model)
  {
    var e := Environment(m, step);
    assert e.world[step.id] == step.fields;
    assert Apply(AsWritten, p, m, step).model == OnPropertyChanged(p, e, step.id, step.name);
  }

  /** For a step the outside world may make, the as-written filter falls out
      of step with its source exactly when the step revives a removed
      session. */
  lemma StepBreaksSyncIffRevives(p: Applicability, m: Model, step: Step)
    requires ReadsOnlyWatched(p)
    requires Synchronized(p, m)
    requires Valid(m, step) && Assumed(m, step)
    ensures (Apply(AsWritten, p, m, step).Handled? && !Synchronized(p, Apply(AsWritten, p, m, step).model))
      <==> Revives(p, m, step)
  {
    if Revives(p, m, step) {
      RevivalBreaksSync(p, m, step);
    } else {
      StepKeepsSync(p, m, step);
    }
  }

  /** A whole run of the as-written filter without revivals ends in step with
      its source unless it stopped at an exception. */
  lemma {:induction false} RunKeepsSync(p: Applicability, m: Model, steps: seq<Step>)
    requires ReadsOnlyWatched(p)
    requires Synchronized(p, m)
    requires ValidRun(AsWritten, p, m, steps)
    requires Assumes(AsWritten, p, m, steps) && NoRevival(AsWritten, p, m, steps)
    ensures Run(AsWritten, p, m, steps).Handled? ==> Synchronized(p, Run(AsWritten, p, m, steps).model)
    decreases |steps|
  {
    if steps != [] {
      StepKeepsSync(p, m, steps[0]);
      var o := Apply(AsWritten, p, m, steps[0]);
      if o.Handled? {
        RunKeepsSync(p, o.model, steps[1..]);
      }
    }
  }

  /** Every run of the handlers as written keeps the view free of duplicates,
      revivals included: an id is appended only when it is not already there. */
  lemma {:induction false} RunKeepsNoDup(p: Applicability, m: Model, steps: seq<Step>)
    requires NoDup(m.filtered)
    requires ValidRun(AsWritten, p, m, steps)
    ensures NoDup(Run(AsWritten, p, m, steps).model.filtered)
    decreases |steps|
  {
    if steps != [] {
      var o := Apply(AsWritten, p, m, steps[0]);
      if o.Handled? {
        RunKeepsNoDup(p, o.model, steps[1..]);
      }
    }
  }

  /** The repaired filter's invariant: in step with its source, and attached
      exactly once to exactly the sessions of the source. */
  ghost predicate FixedSync(p: Applicability, m: Model) {
    Synchronized(p, m) && forall x :: Subs(m, x) == (if x in m.source then 1 else 0)
  }

  /** Two states that agree on everything but the attachments, and attach
      to every source session, are in step alike. */
  lemma SyncIgnoresSubsCount(p: Applicability, m1: Model, m2: Model)
    requires m1.world == m2.world && m1.source == m2.source && m1.filtered == m2.filtered
    requires Synchronized(p, m1)
    requires forall x :: x in m2.source ==> Subs(m2, x) > 0
    ensures Synchronized(p, m2)
  {
  }

  lemma FixedStepKeepsSync(p: Applicability, m: Model, step: Step)
    requires ReadsOnlyWatched(p)
    requires FixedSync(p, m)
    requires Valid(m, step) && Assumed(m, step)
    ensures Apply(Corrected, p, m, step).Handled? <==> !Unsupported(step)
    ensures Apply(Corrected, p, m, step).Handled? ==> FixedSync(p, Apply(Corrected, p, m, step).model)
  {
    if !Unsupported(step) {
      var e := Environment(m, step);
      var fixedR := Apply(Corrected, p, m, step).model;
      var asWritten := Apply(AsWritten, p, m, step).model;
      assert !Revives(p, m, step);
      StepKeepsSync(p, m, step);
      if !step.Changed? {
        FixedCollectionSameView(p, e, ChangeOf(m, step));
      }
      assert fixedR.filtered == asWritten.filtered;
      assert fixedR.world == asWritten.world && fixedR.source == asWritten.source;
      forall x ensures Subs(fixedR, x) == (if x in fixedR.source then 1 else 0) {
        match step
        case Insert(i, s) =>
          assert x in fixedR.source <==> x == s.id || x in m.source;
        case RemoveAt(i) =>
          assert x in fixedR.source <==> x in m.source && x != m.source[i];
        case ResetTo(_, _) =>
        case Changed(id, name, f) =>
          assert fixedR == FixedOnPropertyChanged(p, e, id, name);
      }
      SyncIgnoresSubsCount(p, asWritten, fixedR);
    }
  }

  /** Every run of the repaired filter ends in step with its source, attached
      once to each source session, unless it stopped at an exception. No
      exclusion of revivals is needed. */
  lemma {:induction false} FixedRunKeepsSync(p: Applicability, m: Model, steps: seq<Step>)
    requires ReadsOnlyWatched(p)
    requires FixedSync(p, m)
    requires ValidRun(Corrected, p, m, steps)
    requires Assumes(Corrected, p, m, steps)
    ensures Run(Corrected, p, m, steps).Handled? ==> FixedSync(p, Run(Corrected, p, m, steps).model)
    decreases |steps|
  {
    if steps != [] {
      FixedStepKeepsSync(p, m, steps[0]);
      var o := Apply(Corrected, p, m, steps[0]);
      if o.Handled? {
        FixedRunKeepsSync(p, o.model, steps[1..]);
      }
    }
  }

  /** Construction over distinct source ids starts the repaired filter in its
      invariant. */
  lemma CreateStartsFixedSync(p: Applicability, world: map<Id, SessionFields>, source: seq<Id>)
    requires forall x :: x in source ==> x in world
    requires NoDup(source)
    ensures FixedSync(p, Create(p, world, source))
  {
  }
}

=== FILE: traces.dfy ===
/** Runs of the filter against a changing world: each step is a change made
    by the outside world (to the source collection or to one session), followed
    by the notification it raises and the filter's handling of it. */
module Traces {
  import opened Sessions
  import opened IdSequences
  import opened FilteredCollection
  import opened CorrectedCollection

  /** One change made outside the filter. */
  datatype Step =
    | Insert(index: nat, session: Session)                  // raises Add
    | RemoveAt(index: nat)                                  // raises Remove
    | ResetTo(ids: seq<Id>, added: map<Id, SessionFields>)  // raises Reset
    | ReplaceAt(index: nat, session: Session)               // raises Replace
    | MoveItem(from: nat, to: nat)                          // raises Move
    | Changed(id: Id, name: string, fields: SessionFields)  // raises PropertyChanged

  /** Which handlers react: the ones as written, or the repaired ones. */
  datatype Handlers = AsWritten | Corrected

  predicate Unsupported(step: Step) {
    step.ReplaceAt? || step.MoveItem?
  }

  /** The step can be made at all: its positions exist and a reset source
      names only sessions that exist. */
  predicate Valid(m: Model, step: Step) {
    match step
    case Insert(i, _) => i <= |m.source|
    case RemoveAt(i) => i < |m.source|
    case ResetTo(ids, added) => forall x :: x in ids ==> x in m.world || x in added
    case ReplaceAt(i, _) => i < |m.source|
    case MoveItem(from, to) => from < |m.source| && to < |m.source|
    case Changed(_, _, _) => true
  }

  /** The step's own change, before the filter hears of it. */
  function Environment(m: Model, step: Step): (r: Model)
    requires Valid(m, step)
    ensures r.filtered == m.filtered && r.subs == m.subs
    ensures step.Insert? ==> step.session.id in r.world
    ensures step.ResetTo? ==> forall x :: x in r.source ==> x in r.world
    ensures step.Changed? ==> step.id in r.world && r.source == m.source
  {
    match step
    case Insert(i, s) => m.(world := m.world[s.id := s.fields], source := InsertAt(m.source, i, s.id))
    case RemoveAt(i) => m.(source := DeleteAt(m.source, i))
    case ResetTo(ids, added) => m.(world := m.world + added, source := ids)
    case ReplaceAt(i, s) => m.(world := m.world[s.id := s.fields], source := m.source[i := s.id])
    case MoveItem(from, to) => m.(source := InsertAt(DeleteAt(m.source, from), to, m.source[from]))
    case Changed(id, _, f) => m.(world := m.world[id := f])
  }

  /** The notification a source step raises. */
  function ChangeOf(m: Model, step: Step): CollectionChange
    requires Valid(m, step) && !step.Changed?
  {
    match step
    case Insert(_, s) => CollectionChange(Add, [s.id], [])
    case RemoveAt(i) => CollectionChange(Remove, [], [m.source[i]])
    case ResetTo(_, _) => CollectionChange(Reset, [], [])
    case ReplaceAt(i, s) => CollectionChange(Replace, [s.id], [m.source[i]])
    case MoveItem(from, _) => CollectionChange(Move, [m.source[from]], [m.source[from]])
  }

  /** One step: the outside change, then the filter's handling of it. */
  function Apply(h: Handlers, p: Applicability, m: Model, step: Step): (r: Outcome)
    requires Valid(m, step)
    ensures r.NotImplemented? <==> Unsupported(step)
  {
    var e := Environment(m, step);
    if step.Changed? then
      if h == AsWritten then Handled(OnPropertyChanged(p, e, step.id, step.name))
      else Handled(FixedOnPropertyChanged(p, e, step.id, step.name))
    else if h == AsWritten then OnCollectionChanged(p, e, ChangeOf(m, step))
    else FixedOnCollectionChanged(p, e, ChangeOf(m, step))
  }

  /** Every step of the run can be made in the state it meets. */
  predicate ValidRun(h: Handlers, p: Applicability, m: Model, steps: seq<Step>)
    decreases |steps|
  {
    steps == [] ||
    (Valid(m, steps[0]) &&
     (Apply(h, p, m, steps[0]).Handled? ==> ValidRun(h, p, Apply(h, p, m, steps[0]).model, steps[1..])))
  }

  /** Steps in order, stopping at the first exception. */
  function Run(h: Handlers, p: Applicability, m: Model, steps: seq<Step>): (r: Outcome)
    requires ValidRun(h, p, m, steps)
    // a run fails exactly when it contains a Replace or a Move
    ensures r.NotImplemented? <==> exists i :: 0 <= i < |steps| && Unsupported(steps[i])
    decreases |steps|
  {
    if steps == [] then Handled(m)
    else
      match Apply(h, p, m, steps[0])
      case NotImplemented(m') => NotImplemented(m')
      case Handled(m') =>
        var r := Run(h, p, m', steps[1..]);
        assert forall i :: 1 <= i < |steps| ==> steps[i] == steps[1..][i - 1];
        assert !Unsupported(steps[0]);
        r
  }

  /** What the outside world is taken to guarantee of one step: ids in the
      source stay distinct, and a property-change notification names the
      property that changed. */
  predicate Assumed(m: Model, step: Step) {
    match step
    case Insert(_, s) => s.id !in m.source
    case ResetTo(ids, _) => NoDup(ids)
    case Changed(id, name, f) => id in m.world && Honest(name, m.world[id], f)
    case _ => true
  }

  /** A watched change of a session that has left the source but is still
      attached, which the callback accepts: the as-written filter puts it back
      into its view. */
  predicate Revives(p: Applicability, m: Model, step: Step) {
    step.Changed? && IsWatched(step.name) && step.id !in m.source &&
    Subs(m, step.id) > 0 && p(step.fields)
  }

  /** Every step of the run meets `Assumed`. */
  ghost predicate Assumes(h: Handlers, p: Applicability, m: Model, steps: seq<Step>)
    requires ValidRun(h, p, m, steps)
    decreases |steps|
  {
    steps == [] ||
    (Assumed(m, steps[0]) &&
     (Apply(h, p, m, steps[0]).Handled? ==> Assumes(h, p, Apply(h, p, m, steps[0]).model, steps[1..])))
  }

  /** No step of the run revives a removed session. */
  ghost predicate NoRevival(h: Handlers, p: Applicability, m: Model, steps: seq<Step>)
    requires ValidRun(h, p, m, steps)
    decreases |steps|
  {
    steps == [] ||
    (!Revives(p, m, steps[0]) &&
     (Apply(h, p, m, steps[0]).Handled? ==> NoRevival(h, p, Apply(h, p, m, steps[0]).model, steps[1..])))
  }

  /** A run that starts with a handled step continues from that step's state. */
  lemma RunStep(h: Handlers, p: Applicability, m: Model, steps: seq<Step>, m': Model)
    requires steps != [] && Valid(m, steps[0]) && Apply(h, p, m, steps[0]) == Handled(m')
    requires ValidRun(h, p, m', steps[1..])
    ensures ValidRun(h, p, m, steps)
    ensures Run(h, p, m, steps) == Run(h, p, m', steps[1..])
  {
  }
}
